=== FILE: README.md ===
# AWS session handler: token lifecycle model

A Dafny model of `AwsSessionHandler`, a small Python class that hands out boto3
sessions for AWS profiles. When a profile's configuration names a role to
assume, an MFA device and a source profile, the handler keeps two credential
tiers:

- a long-lived MFA session token obtained with `get_session_token` (twelve hours
  by default);
- a short-lived assumed-role token obtained with `assume_role` (fifteen minutes
  by default).

Both are cached in memory and in a JSON cache file. On every session request the
handler re-reads the profile's configuration and checks each tier for expiry,
with a ten-second safety margin, and for identity. It then refreshes whatever is
missing, in dependency order, and rewrites the cache file when the short token
was reissued.

The model is functional. A `HandlerState` record holds the selector (profile,
region), the scoped configuration, the session handed out, the disk-cache flag,
both tiers and both durations. `GetSession(h, cfg, now, replies)` returns the
next handler, the trace of effects and whether the call returned or raised. The
effects are the MFA prompt, the two STS requests with their parameters, and the
cache write with the document written. The outside world comes in as data: the
profile's configuration, the clock as integer seconds, the typed MFA code and
the two STS replies. An absent code or reply is the corresponding call raising.
`Run` strings calls to `set`, `get_session` and `client` together, so that
properties of whole runs can be stated.

Modules: `Basics` (optional values, Python truthiness), `Tokens` (credentials,
tiers, the two validity checks), `Handler` (construction, `set`, region
adoption, cache document), `SessionMachine` (`_get_session`, `client`, runs),
`Properties` (per-call and two-call lemmas), `Runs` (lemmas over runs),
`Scenarios` (concrete walks).

## Model

| member | source | states |
|---|---|---|
| Tokens.CheckLong | aws_session_handler/awssessionhandler.py:125-134 | the long token survives iff it is unexpired past now+10 and bound to the configured source profile; an expired one is dropped alone, while a source-profile mismatch also drops the short token; a surviving token is the same one |
| Tokens.CheckShort | aws_session_handler/awssessionhandler.py:136-143 | the short token survives iff it is unexpired past now+10 and bound to the current profile; the long tier is never changed by this check |
| Tokens.Validate | aws_session_handler/awssessionhandler.py:121-143 | after both checks a long token survives iff it was valid, and a short token survives iff it was valid and the long token did not have a source-profile mismatch |
| Handler.Init | aws_session_handler/awssessionhandler.py:28-71 | the durations are the truthy arguments or 43200 and 900; the region is adopted from the configuration; no session exists yet; tokens are preloaded from the cache file only when caching is enabled and the file is there |
| Handler.Set | aws_session_handler/awssessionhandler.py:73-82 | profile and region are replaced only by truthy arguments; nothing else changes, not even an existing session |
| Handler.AdoptRegion | aws_session_handler/awssessionhandler.py:111-112 | a truthy region is kept; a falsy one is replaced by the configured region when the profile has one |
| Handler.ConfigLookup | aws_session_handler/awssessionhandler.py:105-112 | a lookup replaces the configuration and applies the region rule, leaving tokens, profile and session alone |
| Handler.Load | aws_session_handler/awssessionhandler.py:63-71 | a tier is preloaded iff its key is present with a token, and then holds exactly that token; a missing key and a null both leave the tier empty |
| Handler.Save | aws_session_handler/awssessionhandler.py:201-207 | the written document always holds both keys, and loading it gives back exactly the tiers written |
| SessionMachine.RefreshLong | aws_session_handler/awssessionhandler.py:145-161 | a kept long token is left alone with no effect; a new one holds the STS reply's credentials and expiration, the configured source profile and the handler's region; a raising prompt or request leaves the handler unchanged |
| SessionMachine.RefreshShort | aws_session_handler/awssessionhandler.py:163-183 | a kept short token is left alone with no effect; a new one holds the assume-role reply's credentials and expiration, the current profile and the handler's region; a raising request leaves the handler unchanged |
| SessionMachine.WriteCacheFile | aws_session_handler/awssessionhandler.py:201-207 | a disabled disk cache writes nothing; otherwise one write carries both tiers together |
| SessionMachine.GetSession | aws_session_handler/awssessionhandler.py:114-199 | without role_arn, mfa_serial and source_profile the call has no effect and keeps the tiers, using the lookup session; a completed role-path call holds both tiers bound to the current identities, with the session built from the short token and the region; surviving tiers are kept, and a reissued tier holds this call's STS reply, its identity and the adopted region, even when a later request of the call raises; the trace is ordered prompt, session-token request, role assumption, cache write; a call with both tiers valid is silent; a raising call keeps the old session and does not restore a tier validation dropped, and only a rejected role assumption leaves a new long token behind |
| SessionMachine.Client | aws_session_handler/awssessionhandler.py:92-99 | the call refuses with the missing-selector error iff both profile and region are falsy; an existing session is handed back with no effect and no re-validation; with no session the call is exactly `_get_session`; a completed call always has a session |
| Properties.GetSessionPromptsAndSessionTokens | aws_session_handler/awssessionhandler.py:145-153 | at most one MFA prompt, exactly when the role path runs and no long token survived validation; the session-token request is made only once a code was entered |
| Properties.GetSessionAssumeRoles | aws_session_handler/awssessionhandler.py:163-175 | at most one role assumption, exactly when the role path runs, no short token survived and a long token is at hand |
| Properties.GetSessionCacheWrites | aws_session_handler/awssessionhandler.py:163-195 | a cache write happens iff the short token was reissued, the call completed and the cache is enabled; the write holds both final tiers |
| Properties.GetSessionRequestParameters | aws_session_handler/awssessionhandler.py:145-175 | the session-token request carries the long duration, the source profile, the MFA serial, the typed code and the region; the role assumption carries the short duration, the role ARN, the fixed session name and the long token's credentials |
| Properties.SecondCallIsQuiet | aws_session_handler/awssessionhandler.py:119-145 | after a completed call, a second call with the same configuration before either new token nears expiry has no effect and keeps both tokens |
| Properties.ExpiredLongKeepsValidShort | aws_session_handler/awssessionhandler.py:128-129 | an expired long token is reissued alone; a valid short token is kept, the role is not assumed again and the cache is not written |
| Properties.SourceProfileSwitchReissuesBoth | aws_session_handler/awssessionhandler.py:130-134 | a long token for another source profile is dropped together with the short token, however far off its expiry: one prompt, one session-token request, one role assumption, one write when enabled |
| Properties.TargetProfileSwitchReissuesOnlyShort | aws_session_handler/awssessionhandler.py:141-143 | after `set` selects another profile with the same source profile, the next call keeps the long token, prompts for nothing and assumes the role once for the new profile |
| Properties.CacheRoundTrip | aws_session_handler/awssessionhandler.py:201-207 | a new handler built on the document a call wrote starts with the tiers the writing handler holds after that call |
| Properties.AdoptRegionIdempotent | aws_session_handler/awssessionhandler.py:111-112 | looking the same profile up again does not move the region |
| Properties.ClientAfterSetReusesSession | aws_session_handler/awssessionhandler.py:95-96 | after `set`, `client` still hands back the session built before, with no effect |
| Runs.ApplyBounds | aws_session_handler/awssessionhandler.py:114-207 | every single call makes at most one prompt, one session-token request per prompt, one role assumption and one write per role assumption, and never writes with caching disabled |
| Runs.RunBounds | aws_session_handler/awssessionhandler.py:114-207 | over any run, writes never outnumber role assumptions, session-token requests never outnumber prompts, and neither prompts nor role assumptions outnumber session requests |
| Runs.RunWithCacheDisabledNeverWrites | aws_session_handler/awssessionhandler.py:201-202 | a handler with the disk cache disabled never writes, over any run |
| Runs.RunWithoutRoleIsSilent | aws_session_handler/awssessionhandler.py:197-199 | a run in which no requested profile has a role prompts for nothing, requests nothing, writes nothing and keeps the tiers |
| Runs.RunQuietWhileValid | aws_session_handler/awssessionhandler.py:125-145 | requests for one role profile while both tokens are valid are silent and keep both tokens, however many there are |
| Scenarios.FirstCallWithoutCache | aws_session_handler/awssessionhandler.py:145-195 | a fresh `dev` handler with no cache prompts once, requests 43200 s for `base`, assumes the role for 900 s, and writes both tokens with the short one bound to `dev` |
| Scenarios.PreloadedCacheIsReused | aws_session_handler/awssessionhandler.py:62-71 | a cache with a six-hour long token and a twenty-minute short token for the right identities serves the request with no effect |
| Scenarios.ExpiredLongWithLiveShort | aws_session_handler/awssessionhandler.py:128-129 | with a long token one second expired and a live short token, the trace is the prompt and the session-token request only |
| Scenarios.ExpiryAtMarginCountsAsExpired | aws_session_handler/awssessionhandler.py:122-128 | a token expiring exactly at now+10 is expired; one second later it is valid |

## Behaviour as written

Points where the code behaves differently from what its comments or a reader
might expect; the model follows the code:

- An expired long token clears only the long token (lines 128-129), so a live
  short token outlives its parent and the role is not assumed again. Only line
  164 sets `token_changed`, so no cache write follows a long-token refresh alone.
- The missing profile and region check exists only in `client` (line 92).
  `get_session` performs no such check.
- On the path without a role, the session is built from the lookup session
  (line 199). The region override is not passed to that session (line 108 is
  commented out), so the session is not scoped to an explicitly set region.
  `DefaultChainSession` carries only the profile for that reason.
- The cache file is read with `json.load` (line 65). An unreadable document
  raises; it is not treated as an empty cache.

## Left out

- boto3/botocore session and client construction, and the STS network calls:
  their answers are supplied as `StsReply` values or their absence, and the SDK
  client built by `client` is represented by the session it is built from.
- The configuration store lookup: its answer for the current profile is a
  supplied `Config`. A profile missing from the store, which raises in
  botocore, is not modelled.
- The interactive `input` for the MFA code: a supplied optional code plus a
  recorded `MfaPrompt` effect.
- Filesystem checks and cache directory creation in the constructor (lines
  41-60), and JSON reading and writing: the cache file is an optional
  `CacheDoc`, present when the file exists and is writable.
- Parsing of the stored ISO-8601 expiry, with its offset rewriting: expiries are
  integer seconds.
- Malformed cached tokens (missing keys) raise `KeyError` in the code. The model
  only has well-formed tokens.
- Concurrency and the inter-process race on the cache file: calls are sequential.
- `setup.py`: packaging metadata.

=== FILE: basics.dfy ===
/** Small value helpers shared by the session-handler model: an optional value and
    the truthiness rules of the handler's own language, where `None`, the empty
    string and the integer zero are all false in a condition. */
module Basics {

  /** An optional value; `None` stands for Python's `None`. */
  datatype Option<+T> = None | Some(value: T)

  /** `if s:` on a string that may be `None`: false for `None` and for `""`. */
  predicate TruthyStr(s: Option<string>) {
    s.Some? && s.value != ""
  }

  /** `if n:` on an integer that may be `None`: false for `None` and for `0`. */
  predicate TruthyInt(n: Option<int>) {
    n.Some? && n.value != 0
  }
}

=== FILE: handler.dfy ===
/** The handler record and the operations on it that do not talk to STS:
    construction with its duration defaults and cache preload
    (awssessionhandler.py lines 10-71), `set` (73-82), the region rule of
    `_config_lookup` (105-112) and the shape of the cache document written by
    `_write_cache_file` (201-207). */
module Handler {
  import opened Basics
  import opened Tokens

  /** Requested lifetime of the MFA session token when none is given: twelve hours. */
  const DefaultLongDuration: int := 43200

  /** Requested lifetime of the assumed-role token when none is given: fifteen minutes. */
  const DefaultShortDuration: int := 900

  /** The scoped configuration of one profile as the configuration store reports it;
      a `None` field is a key absent from that profile's section. */
  datatype Config = Config(region: Option<string>, roleArn: Option<string>,
                           mfaSerial: Option<string>, sourceProfile: Option<string>)

  /** The SDK session the handler hands out: one built from the assumed-role
      credentials, or the lookup session's own default credential chain. */
  datatype Session =
    | RoleSession(creds: Credentials, region: Option<string>)
    | DefaultChainSession(profile: Option<string>)

  /** Everything the handler keeps between calls. */
  datatype HandlerState = HandlerState(
    profile: Option<string>,
    region: Option<string>,
    config: Config,
    session: Option<Session>,
    diskCacheDisabled: bool,
    long: Option<LongToken>,
    longDuration: int,
    short: Option<ShortToken>,
    shortDuration: int)
  {
    /** The two cached tiers of this handler. */
    function HeldTiers(): Tiers {
      Tiers(long, short)
    }
  }

  /** One key of the cache document: absent, present with `null`, or present with a token. */
  datatype Field<+T> = Missing | Null | Present(value: T)

  /** The JSON object kept in the cache file. */
  datatype CacheDoc = CacheDoc(long: Field<LongToken>, short: Field<ShortToken>)

  /** Reading one key: a missing key and a `null` both leave the tier empty. */
  function FieldToken<T>(f: Field<T>): (r: Option<T>)
    ensures r.Some? <==> f.Present?
    ensures r.Some? ==> r.value == f.value
  {
    match f
    case Present(v) => Some(v)
    case _ => None
  }

  /** Writing one tier: an empty tier becomes `null`, never a missing key. */
  function TokenField<T>(t: Option<T>): (f: Field<T>)
    ensures !f.Missing?
    ensures FieldToken(f) == t
  {
    match t
    case Some(v) => Present(v)
    case None => Null
  }

  /** The tiers preloaded from a cache document (lines 67-71). */
  function Load(doc: CacheDoc): (t: Tiers)
    ensures t.long.Some? <==> doc.long.Present?
    ensures t.short.Some? <==> doc.short.Present?
    ensures doc.long.Present? ==> t.long == Some(doc.long.value)
    ensures doc.short.Present? ==> t.short == Some(doc.short.value)
  {
    Tiers(FieldToken(doc.long), FieldToken(doc.short))
  }

  /** The document `_write_cache_file` dumps: both keys, always, so that loading
      it gives back exactly the tiers that were written. */
  function Save(t: Tiers): (doc: CacheDoc)
    ensures !doc.long.Missing? && !doc.short.Missing?
    ensures Load(doc) == t
  {
    CacheDoc(TokenField(t.long), TokenField(t.short))
  }

  /** The region rule of `_config_lookup`: a falsy region is replaced by the
      profile's configured region when it has one; a truthy region is kept. */
  function AdoptRegion(region: Option<string>, cfg: Config): (r: Option<string>)
    ensures TruthyStr(region) ==> r == region
    ensures !TruthyStr(region) && cfg.region.Some? ==> r == cfg.region
    ensures !TruthyStr(region) && cfg.region.None? ==> r == region
    ensures r == region || r == cfg.region
  {
    if cfg.region.Some? && !TruthyStr(region) then cfg.region else region
  }

  /** `_config_lookup` with the store's answer `cfg` supplied: the configuration is
      replaced and the region possibly adopted; nothing else changes. */
  function ConfigLookup(h: HandlerState, cfg: Config): (h': HandlerState)
    ensures h'.config == cfg
    ensures h'.region == AdoptRegion(h.region, cfg)
    ensures h' == h.(config := cfg, region := h'.region)
  {
    h.(config := cfg, region := AdoptRegion(h.region, cfg))
  }

  /** A duration argument or its default when the argument is falsy (lines 37, 39). */
  function DurationOr(arg: Option<int>, default: int): (d: int)
    ensures TruthyInt(arg) ==> d == arg.value
    ensures !TruthyInt(arg) ==> d == default
  {
    if TruthyInt(arg) then arg.value else default
  }

  /** The constructor; a caller naming no profile passes `Some("default")`, the
      default argument. `cfg` is the store's answer for `profile`; `cacheFile` is the
      parsed cache document when the cache file exists and is writable. With the
      disk cache disabled the file is never read. */
  function Init(profile: Option<string>, region: Option<string>, diskCacheDisabled: bool,
                longArg: Option<int>, shortArg: Option<int>,
                cfg: Config, cacheFile: Option<CacheDoc>): (h: HandlerState)
    ensures h.profile == profile
    ensures h.region == AdoptRegion(region, cfg)
    ensures h.config == cfg
    ensures h.session.None?
    ensures h.diskCacheDisabled == diskCacheDisabled
    ensures h.longDuration == (if TruthyInt(longArg) then longArg.value else DefaultLongDuration)
    ensures h.shortDuration == (if TruthyInt(shortArg) then shortArg.value else DefaultShortDuration)
    ensures diskCacheDisabled || cacheFile.None? ==> h.long.None? && h.short.None?
    ensures !diskCacheDisabled && cacheFile.Some? ==> h.HeldTiers() == Load(cacheFile.value)
  {
    var preload := if !diskCacheDisabled && cacheFile.Some? then Load(cacheFile.value) else Tiers(None, None);
    var h0 := HandlerState(profile, region, cfg, None, diskCacheDisabled, None,
                      DurationOr(longArg, DefaultLongDuration), None,
                      DurationOr(shortArg, DefaultShortDuration));
    ConfigLookup(h0, cfg).(long := preload.long, short := preload.short)
  }

  /** `set`: only a truthy argument replaces the stored selector. The configuration,
      the tokens and an already built session are left alone. */
  function Set(h: HandlerState, profile: Option<string>, region: Option<string>): (h': HandlerState)
    ensures h'.profile == (if TruthyStr(profile) then profile else h.profile)
    ensures h'.region == (if TruthyStr(region) then region else h.region)
    ensures h' == h.(profile := h'.profile, region := h'.region)
  {
    var withProfile := if TruthyStr(profile) then h.(profile := profile) else h;
    if TruthyStr(region) then withProfile.(region := region) else withProfile
  }
}

=== FILE: properties.dfy ===
/** Properties of the token lifecycle that relate a call's decisions to its
    effects, several calls to each other, and the cache file to the handler. */
module Properties {
  import opened Basics
  import opened Tokens
  import opened Handler
  import opened SessionMachine

  /** Counting distributes over concatenation of traces. */
  lemma {:induction false} CountAppend(a: seq<Effect>, b: seq<Effect>)
    ensures forall k :: Count(a + b, k) == Count(a, k) + Count(b, k)
    decreases |a|
  {
    if |a| == 0 {
      assert a + b == b;
    } else {
      assert (a + b)[1..] == a[1..] + b;
      CountAppend(a[1..], b);
    }
  }

  /** A one-effect trace counts that effect's kind once. */
  lemma CountOne(e: Effect, k: EffectKind)
    ensures Count([e], k) == (if e.Kind() == k then 1 else 0)
  {
  }

  /** The prompt and the get-session-token request happen at most once, and
      exactly when the role path runs and no long token survived validation; the
      request is only issued once a code was entered. */
  lemma GetSessionPromptsAndSessionTokens(h: HandlerState, cfg: Config, now: int, replies: Replies)
    ensures var r := GetSession(h, cfg, now, replies);
            && Count(r.effects, KPrompt)
               == (if RoleRequired(cfg) && Validated(h, cfg, now).long.None? then 1 else 0)
            && Count(r.effects, KGetSessionToken)
               == (if RoleRequired(cfg) && Validated(h, cfg, now).long.None? && replies.mfaCode.Some? then 1 else 0)
  {
    CallCounts(h, cfg, now, replies);
  }

  /** At most one role assumption per call, made exactly when the role path runs,
      no short token survived validation and a long token is at hand (kept, or
      just obtained). */
  lemma GetSessionAssumeRoles(h: HandlerState, cfg: Config, now: int, replies: Replies)
    ensures var r := GetSession(h, cfg, now, replies);
            Count(r.effects, KAssumeRole)
            == (if RoleRequired(cfg) && Validated(h, cfg, now).short.None?
                   && (Validated(h, cfg, now).long.Some? || (replies.mfaCode.Some? && replies.sessionToken.Some?))
                then 1 else 0)
  {
    CallCounts(h, cfg, now, replies);
  }

  /** A cache write happens exactly when the short token was reissued by a call
      that completed and the disk cache is enabled; a long-token refresh alone
      never writes. The write carries both tiers as they stand after the call. */
  lemma GetSessionCacheWrites(h: HandlerState, cfg: Config, now: int, replies: Replies)
    ensures var r := GetSession(h, cfg, now, replies);
            && Count(r.effects, KCacheWrite)
               == (if RoleRequired(cfg) && Validated(h, cfg, now).short.None? && r.status == Done
                      && !h.diskCacheDisabled then 1 else 0)
            && (forall e | e in r.effects && e.CacheWrite? :: e.doc == Save(r.h.HeldTiers()))
  {
    CallCounts(h, cfg, now, replies);
  }

  /** Every request a call issues carries the handler's configured duration, the
      configured MFA device or role, and, for the role assumption, the long
      token's credentials. */
  lemma GetSessionRequestParameters(h: HandlerState, cfg: Config, now: int, replies: Replies)
    ensures var r := GetSession(h, cfg, now, replies);
            && (forall e | e in r.effects && e.GetSessionTokenCall? ::
                  && RoleRequired(cfg)
                  && e.duration == h.longDuration
                  && e.sourceProfile == cfg.sourceProfile.value
                  && e.serialNumber == cfg.mfaSerial.value
                  && Some(e.tokenCode) == replies.mfaCode
                  && e.region == AdoptRegion(h.region, cfg))
            && (forall e | e in r.effects && e.AssumeRoleCall? ::
                  && RoleRequired(cfg)
                  && e.duration == h.shortDuration
                  && e.roleArn == cfg.roleArn.value
                  && e.sessionName == RoleSessionName
                  && r.h.long.Some? && e.creds == r.h.long.value.creds)
  {
  }

  /** The effects of the long-token refresh by kind. */
  lemma RefreshLongCounts(h: HandlerState, replies: Replies, k: EffectKind)
    requires RoleRequired(h.config)
    requires h.long.Some? ==> h.long.value.sourceProfile == h.config.sourceProfile.value
    ensures Count(RefreshLong(h, replies).effects, k)
            == (if h.long.None? && (k == KPrompt || (k == KGetSessionToken && replies.mfaCode.Some?)) then 1 else 0)
  {
    var s1 := RefreshLong(h, replies);
    if h.long.Some? {
      assert s1.effects == [];
    } else if replies.mfaCode.None? {
      assert s1.effects == [MfaPrompt];
      CountOne(MfaPrompt, k);
    } else {
      var request := GetSessionTokenCall(h.config.sourceProfile.value, h.region, h.longDuration,
                                         h.config.mfaSerial.value, replies.mfaCode.value);
      assert s1.effects == [MfaPrompt] + [request];
      CountOne(MfaPrompt, k);
      CountOne(request, k);
      CountAppend([MfaPrompt], [request]);
    }
  }

  /** The effects of the short-token refresh by kind. */
  lemma RefreshShortCounts(h: HandlerState, replies: Replies, k: EffectKind)
    requires RoleRequired(h.config) && h.long.Some?
    requires h.short.Some? ==> h.short.value.profile == h.profile
    ensures Count(RefreshShort(h, replies).effects, k) == (if h.short.None? && k == KAssumeRole then 1 else 0)
  {
  }

  /** The effects of the cache write by kind. */
  lemma WriteCacheFileCounts(h: HandlerState, k: EffectKind)
    ensures Count(WriteCacheFile(h), k) == (if !h.diskCacheDisabled && k == KCacheWrite then 1 else 0)
  {
  }

  /** The shared case analysis behind the counting lemmas. */
  lemma CallCounts(h: HandlerState, cfg: Config, now: int, replies: Replies)
    ensures var r := GetSession(h, cfg, now, replies);
            RoleRequired(cfg) ==>
              var v := Validated(h, cfg, now);
              && Count(r.effects, KPrompt) == (if v.long.None? then 1 else 0)
              && Count(r.effects, KGetSessionToken) == (if v.long.None? && replies.mfaCode.Some? then 1 else 0)
              && Count(r.effects, KAssumeRole)
                 == (if v.short.None? && (v.long.Some? || (replies.mfaCode.Some? && replies.sessionToken.Some?))
                     then 1 else 0)
              && Count(r.effects, KCacheWrite)
                 == (if v.short.None? && r.status == Done && !h.diskCacheDisabled then 1 else 0)
              && (forall e | e in r.effects && e.CacheWrite? :: e.doc == Save(r.h.HeldTiers()))
  {
    if RoleRequired(cfg) {
      var r := GetSession(h, cfg, now, replies);
      var h1 := ConfigLookup(h, cfg);
      var v := Validated(h, cfg, now);
      var h2 := h1.(long := v.long, short := v.short);
      var s1 := RefreshLong(h2, replies);
      forall k {
        RefreshLongCounts(h2, replies, k);
      }
      if s1.status == Done {
        var s2 := RefreshShort(s1.h, replies);
        forall k ensures Count(s2.effects, k) == (if s1.h.short.None? && k == KAssumeRole then 1 else 0) {
          RefreshShortCounts(s1.h, replies, k);
        }
        CountAppend(s1.effects, s2.effects);
        if s2.status == Done {
          var h3 := s2.h.(session := Some(RoleSession(s2.h.short.value.creds, s2.h.region)));
          var writes := if h2.short.None? then WriteCacheFile(h3) else [];
          assert r.effects == s1.effects + s2.effects + writes;
          forall k ensures Count(WriteCacheFile(h3), k) == (if !h3.diskCacheDisabled && k == KCacheWrite then 1 else 0) {
            WriteCacheFileCounts(h3, k);
          }
          CountAppend(s1.effects + s2.effects, writes);
        }
      }
    }
  }

  /** The region rule is stable: looking the same profile up again adopts nothing new. */
  lemma AdoptRegionIdempotent(region: Option<string>, cfg: Config)
    ensures AdoptRegion(AdoptRegion(region, cfg), cfg) == AdoptRegion(region, cfg)
  {
  }

  /** A second call with the same configuration, made while both freshly held
      tokens still outlive the safety margin, prompts for nothing, requests
      nothing, writes nothing and keeps both tokens. */
  lemma SecondCallIsQuiet(h: HandlerState, cfg: Config, now: int, replies: Replies, later: int, replies': Replies)
    requires RoleRequired(cfg)
    requires GetSession(h, cfg, now, replies).status == Done
    requires GetSession(h, cfg, now, replies).h.long.value.expire > later + SafetyMargin
    requires GetSession(h, cfg, now, replies).h.short.value.expire > later + SafetyMargin
    ensures var h' := GetSession(h, cfg, now, replies).h;
            var r := GetSession(h', cfg, later, replies');
            r.status == Done && r.effects == [] && r.h.HeldTiers() == h'.HeldTiers()
  {
  }

  /** An expired long token is replaced on its own: a still valid short token is
      kept, the role is not assumed again, and since only the short-token branch
      marks the tokens as changed, the new long token is not written to the cache. */
  lemma ExpiredLongKeepsValidShort(h: HandlerState, cfg: Config, now: int, replies: Replies)
    requires RoleRequired(cfg)
    requires h.long.Some? && Lapsed(h.long.value.expire, now)
    requires ShortState(h.short, h.profile, now) == Valid
    requires replies.mfaCode.Some? && replies.sessionToken.Some?
    ensures var r := GetSession(h, cfg, now, replies);
            && r.status == Done
            && Count(r.effects, KPrompt) == 1 && Count(r.effects, KGetSessionToken) == 1
            && Count(r.effects, KAssumeRole) == 0 && Count(r.effects, KCacheWrite) == 0
            && r.h.short == h.short
            && r.h.long == Some(LongToken(replies.sessionToken.value.creds, replies.sessionToken.value.expiration,
                                          cfg.sourceProfile.value, AdoptRegion(h.region, cfg)))
  {
    CallCounts(h, cfg, now, replies);
  }

  /** A long token issued for another source profile takes the short token with
      it, however far off its expiry: the call prompts, requests a session token,
      assumes the role and, with the disk cache enabled, writes the cache once. */
  lemma SourceProfileSwitchReissuesBoth(h: HandlerState, cfg: Config, now: int, replies: Replies)
    requires RoleRequired(cfg)
    requires LongState(h.long, cfg.sourceProfile.value, now) == IdentityMismatch
    requires replies.mfaCode.Some? && replies.sessionToken.Some? && replies.assumeRole.Some?
    ensures var r := GetSession(h, cfg, now, replies);
            && r.status == Done
            && Count(r.effects, KPrompt) == 1 && Count(r.effects, KGetSessionToken) == 1
            && Count(r.effects, KAssumeRole) == 1
            && Count(r.effects, KCacheWrite) == (if h.diskCacheDisabled then 0 else 1)
            && r.h.short == Some(ShortToken(replies.assumeRole.value.creds, replies.assumeRole.value.expiration,
                                            h.profile, AdoptRegion(h.region, cfg)))
  {
    CallCounts(h, cfg, now, replies);
  }

  /** Selecting another target profile after a completed call keeps the long
      token: the next call assumes the role once for the new profile without any
      MFA prompt. */
  lemma TargetProfileSwitchReissuesOnlyShort(h: HandlerState, cfg: Config, now: int, replies: Replies,
                                             profile: string, cfg': Config, later: int, replies': Replies)
    requires RoleRequired(cfg) && RoleRequired(cfg')
    requires cfg'.sourceProfile == cfg.sourceProfile
    requires GetSession(h, cfg, now, replies).status == Done
    requires GetSession(h, cfg, now, replies).h.long.value.expire > later + SafetyMargin
    requires profile != "" && Some(profile) != h.profile
    requires replies'.assumeRole.Some?
    ensures var h' := Set(GetSession(h, cfg, now, replies).h, Some(profile), None);
            var r := GetSession(h', cfg', later, replies');
            && r.status == Done
            && Count(r.effects, KPrompt) == 0 && Count(r.effects, KGetSessionToken) == 0
            && Count(r.effects, KAssumeRole) == 1
            && r.h.long == h'.long
            && r.h.short.value.profile == Some(profile)
  {
    var h' := Set(GetSession(h, cfg, now, replies).h, Some(profile), None);
    assert RolePathResult(GetSession(h, cfg, now, replies).h, cfg);
    assert LongState(h'.long, cfg'.sourceProfile.value, later) == Valid;
    assert ShortState(h'.short, h'.profile, later) != Valid;
    CallCounts(h', cfg', later, replies');
  }

  /** What a call writes to the cache is what a fresh handler preloads: a new
      handler built on that file starts with exactly the tiers the writing handler
      holds after the call. */
  lemma CacheRoundTrip(h: HandlerState, cfg: Config, now: int, replies: Replies,
                       profile: Option<string>, region: Option<string>,
                       longArg: Option<int>, shortArg: Option<int>, cfg': Config)
    ensures var r := GetSession(h, cfg, now, replies);
            forall e | e in r.effects && e.CacheWrite? ::
              Init(profile, region, false, longArg, shortArg, cfg', Some(e.doc)).HeldTiers() == r.h.HeldTiers()
  {
  }

  /** `set` does not drop the session already built, and `client` hands that
      session back without looking at the tokens: after switching profile, a
      client still uses the credentials of the previous profile. */
  lemma ClientAfterSetReusesSession(h: HandlerState, profile: Option<string>, region: Option<string>,
                                    cfg: Config, now: int, replies: Replies)
    requires h.session.Some?
    requires TruthyStr(h.profile) || TruthyStr(h.region)
    ensures var h' := Set(h, profile, region);
            var r := Client(h', cfg, now, replies);
            r.status == Done && r.effects == [] && r.h.session == h.session && r.h.HeldTiers() == h.HeldTiers()
  {
  }
}

=== FILE: runs.dfy ===
/** Properties of a whole sequence of public calls on one handler: `set`,
    `get_session` and `client`, in any order, with any answers from the outside
    world, including calls that raise. */
module Runs {
  import opened Basics
  import opened Tokens
  import opened Handler
  import opened SessionMachine
  import opened Properties

  /** The bounds every single call respects, whatever its kind. */
  lemma ApplyBounds(h: HandlerState, a: Action)
    ensures var s := Apply(h, a);
            && s.h.diskCacheDisabled == h.diskCacheDisabled
            && Count(s.effects, KCacheWrite) <= Count(s.effects, KAssumeRole) <= 1
            && Count(s.effects, KGetSessionToken) <= Count(s.effects, KPrompt) <= 1
            && (h.diskCacheDisabled ==> Count(s.effects, KCacheWrite) == 0)
  {
    var s := Apply(h, a);
    match a
    case SetSelector(_, _) =>
    case RequestSession(cfg, now, replies) =>
      CallCounts(h, cfg, now, replies);
    case RequestClient(cfg, now, replies) =>
      if s.effects != [] {
        CallCounts(h, cfg, now, replies);
      }
  }

  /** The number of calls in a run that ask for a session. */
  function Requests(actions: seq<Action>): nat {
    if |actions| == 0 then 0
    else (if actions[0].SetSelector? then 0 else 1) + Requests(actions[1..])
  }

  /** Over any run the cache is written at most once per role assumption, the MFA
      prompt appears at most once per session request, and a session token is
      requested at most once per prompt. */
  lemma {:induction false} RunBounds(h: HandlerState, actions: seq<Action>)
    ensures var o := Run(h, actions);
            && Count(o.effects, KCacheWrite) <= Count(o.effects, KAssumeRole) <= Requests(actions)
            && Count(o.effects, KGetSessionToken) <= Count(o.effects, KPrompt) <= Requests(actions)
            && o.h.diskCacheDisabled == h.diskCacheDisabled
    decreases |actions|
  {
    if |actions| > 0 {
      var s := Apply(h, actions[0]);
      ApplyBounds(h, actions[0]);
      RunBounds(s.h, actions[1..]);
      CountAppend(s.effects, Run(s.h, actions[1..]).effects);
      if actions[0].SetSelector? {
        assert s.effects == [];
      }
    }
  }

  /** A handler built with the disk cache disabled never writes the cache, over any run. */
  lemma {:induction false} RunWithCacheDisabledNeverWrites(h: HandlerState, actions: seq<Action>)
    requires h.diskCacheDisabled
    ensures Count(Run(h, actions).effects, KCacheWrite) == 0
    decreases |actions|
  {
    if |actions| > 0 {
      var s := Apply(h, actions[0]);
      ApplyBounds(h, actions[0]);
      RunWithCacheDisabledNeverWrites(s.h, actions[1..]);
      CountAppend(s.effects, Run(s.h, actions[1..]).effects);
    }
  }

  /** A call that is a `set`, or a session request for a profile without a role. */
  predicate NoRoleRequest(a: Action) {
    a.SetSelector? || !RoleRequired(a.cfg)
  }

  /** When no profile the run resolves asks for a role, nothing is prompted,
      requested or written, and the cached tiers stay exactly as they were. */
  lemma {:induction false} RunWithoutRoleIsSilent(h: HandlerState, actions: seq<Action>)
    requires forall i | 0 <= i < |actions| :: NoRoleRequest(actions[i])
    ensures Run(h, actions).effects == []
    ensures Run(h, actions).h.HeldTiers() == h.HeldTiers()
    decreases |actions|
  {
    if |actions| > 0 {
      var s := Apply(h, actions[0]);
      assert NoRoleRequest(actions[0]);
      assert s.effects == [] && s.h.HeldTiers() == h.HeldTiers();
      assert forall i | 0 <= i < |actions[1..]| :: NoRoleRequest(actions[1..][i]) by {
        forall i | 0 <= i < |actions[1..]| ensures NoRoleRequest(actions[1..][i]) {
          assert actions[1..][i] == actions[i + 1];
        }
      }
      RunWithoutRoleIsSilent(s.h, actions[1..]);
    }
  }

  /** A session request for `cfg` made while both held tokens are valid for it. */
  predicate QuietRequest(h: HandlerState, cfg: Config, a: Action)
    requires RoleRequired(cfg)
  {
    && (a.RequestSession? || a.RequestClient?)
    && a.cfg == cfg
    && LongState(h.long, cfg.sourceProfile.value, a.now) == Valid
    && ShortState(h.short, h.profile, a.now) == Valid
  }

  /** Steady state: once both tokens are valid, any number of session and client
      requests for the same role profile, each made before the tokens come within
      the safety margin of expiry, is silent and keeps both tokens. */
  lemma {:induction false} RunQuietWhileValid(h: HandlerState, cfg: Config, actions: seq<Action>)
    requires RoleRequired(cfg)
    requires forall i | 0 <= i < |actions| :: QuietRequest(h, cfg, actions[i])
    ensures Run(h, actions).effects == []
    ensures Run(h, actions).h.HeldTiers() == h.HeldTiers()
    decreases |actions|
  {
    if |actions| > 0 {
      var s := Apply(h, actions[0]);
      assert QuietRequest(h, cfg, actions[0]);
      assert s.effects == [] && s.h.HeldTiers() == h.HeldTiers() && s.h.profile == h.profile;
      forall i | 0 <= i < |actions[1..]| ensures QuietRequest(s.h, cfg, actions[1..][i]) {
        assert actions[1..][i] == actions[i + 1];
        assert QuietRequest(h, cfg, actions[i + 1]);
      }
      RunQuietWhileValid(s.h, cfg, actions[1..]);
    }
  }
}

=== FILE: scenarios.dfy ===
/** Concrete walks through the lifecycle with fixed names and timestamps. */
module Scenarios {
  import opened Basics
  import opened Tokens
  import opened Handler
  import opened SessionMachine

  const DevConfig: Config :=
    Config(Some("eu-west-1"), Some("arn:aws:iam::123:role/X"), Some("arn:aws:iam::123:mfa/user"), Some("base"))

  /** A fresh handler for `dev` with no cache file: the first session request
      prompts once, asks for a twelve-hour session token for `base`, assumes the
      role for fifteen minutes, and writes both tokens, the short one bound to `dev`. */
  lemma FirstCallWithoutCache(now: int, code: string, long: StsReply, short: StsReply)
    ensures var h := Init(Some("dev"), None, false, None, None, DevConfig, None);
            var r := GetSession(h, DevConfig, now, Replies(Some(code), Some(long), Some(short)));
            var longToken := LongToken(long.creds, long.expiration, "base", Some("eu-west-1"));
            var shortToken := ShortToken(short.creds, short.expiration, Some("dev"), Some("eu-west-1"));
            && r.status == Done
            && r.effects == [
                 MfaPrompt,
                 GetSessionTokenCall("base", Some("eu-west-1"), 43200, "arn:aws:iam::123:mfa/user", code),
                 AssumeRoleCall(long.creds, "arn:aws:iam::123:role/X", RoleSessionName, 900),
                 CacheWrite(CacheDoc(Present(longToken), Present(shortToken)))]
            && r.h.session == Some(RoleSession(short.creds, Some("eu-west-1")))
  {
  }

  /** A cache holding a long token for `base` six hours from expiry and a short
      token for `dev` twenty minutes from expiry: the request is answered from
      the cache with no prompt, no STS request and no write. */
  lemma PreloadedCacheIsReused(now: int, longCreds: Credentials, shortCreds: Credentials, replies: Replies)
    ensures var doc := CacheDoc(Present(LongToken(longCreds, now + 21600, "base", Some("eu-west-1"))),
                                Present(ShortToken(shortCreds, now + 1200, Some("dev"), Some("eu-west-1"))));
            var h := Init(Some("dev"), None, false, None, None, DevConfig, Some(doc));
            var r := GetSession(h, DevConfig, now, replies);
            && r.status == Done && r.effects == [] && r.h.HeldTiers() == h.HeldTiers()
  {
  }

  /** A long token that expired a second ago while the short token has twenty
      minutes left: only the long token is fetched again; no role assumption and
      no cache write follow. */
  lemma ExpiredLongWithLiveShort(now: int, longCreds: Credentials, shortCreds: Credentials,
                                 code: string, long: StsReply, replies: Replies)
    ensures var doc := CacheDoc(Present(LongToken(longCreds, now - 1, "base", Some("eu-west-1"))),
                                Present(ShortToken(shortCreds, now + 1200, Some("dev"), Some("eu-west-1"))));
            var h := Init(Some("dev"), None, false, None, None, DevConfig, Some(doc));
            var r := GetSession(h, DevConfig, now, Replies(Some(code), Some(long), replies.assumeRole));
            && r.status == Done
            && r.effects == [MfaPrompt, GetSessionTokenCall("base", Some("eu-west-1"), 43200, "arn:aws:iam::123:mfa/user", code)]
            && r.h.short == h.short
  {
  }

  /** A token expiring exactly at the end of the safety margin is already gone. */
  lemma ExpiryAtMarginCountsAsExpired(now: int, creds: Credentials)
    ensures LongState(Some(LongToken(creds, now + 10, "base", None)), "base", now) == Expired
    ensures LongState(Some(LongToken(creds, now + 11, "base", None)), "base", now) == Valid
    ensures ShortState(Some(ShortToken(creds, now + 10, Some("dev"), None)), Some("dev"), now) == Expired
  {
  }
}

=== FILE: session.dfy ===
/** The per-call token lifecycle of `_get_session` (awssessionhandler.py lines
    114-199), the `client` entry point (92-99) and a run of several public calls.
    Everything the handler asks of the outside world is supplied: the scoped
    configuration, the clock reading, the MFA code and the two STS answers. What
    the handler does to the outside world is returned as an effect trace. */
module SessionMachine {
  import opened Basics
  import opened Tokens
  import opened Handler

  /** The fixed session name of every role assumption. */
  const RoleSessionName: string := "SessionHandlerAssumeRole"

  /** One externally visible action of a call, in the order it happens. */
  datatype Effect =
    | MfaPrompt
    | GetSessionTokenCall(sourceProfile: string, region: Option<string>, duration: int,
                          serialNumber: string, tokenCode: string)
    | AssumeRoleCall(creds: Credentials, roleArn: string, sessionName: string, duration: int)
    | CacheWrite(doc: CacheDoc)
  {
    function Kind(): EffectKind {
      match this
      case MfaPrompt => KPrompt
      case GetSessionTokenCall(_, _, _, _, _) => KGetSessionToken
      case AssumeRoleCall(_, _, _, _) => KAssumeRole
      case CacheWrite(_) => KCacheWrite
    }
  }

  datatype EffectKind = KPrompt | KGetSessionToken | KAssumeRole | KCacheWrite

  /** Why a call raised instead of producing a session. */
  datatype Failure =
    | MissingProfileAndRegion
    | MfaInputUnavailable
    | GetSessionTokenRejected
    | AssumeRoleRejected

  datatype Status = Done | Failed(reason: Failure)

  /** The handler after a call (a call that raises keeps whatever it had already
      changed), what the call did, and whether it returned or raised. */
  datatype Step = Step(h: HandlerState, effects: seq<Effect>, status: Status)

  /** The answers of the outside world to one call: the code typed at the MFA
      prompt and the two STS replies. `None` means that interaction raised. */
  datatype Replies = Replies(mfaCode: Option<string>, sessionToken: Option<StsReply>,
                             assumeRole: Option<StsReply>)

  /** How many effects of kind `k` a trace holds. */
  function Count(es: seq<Effect>, k: EffectKind): nat
  {
    if |es| == 0 then 0
    else (if es[0].Kind() == k then 1 else 0) + Count(es[1..], k)
  }

  /** The role-assumption path is taken exactly when the profile names a role, an
      MFA device and a source profile (line 119). */
  predicate RoleRequired(cfg: Config) {
    cfg.roleArn.Some? && cfg.mfaSerial.Some? && cfg.sourceProfile.Some?
  }

  /** The tiers that survive the two checks of a role-path call. */
  function Validated(h: HandlerState, cfg: Config, now: int): Tiers
    requires RoleRequired(cfg)
  {
    Validate(h.HeldTiers(), cfg.sourceProfile.value, h.profile, now)
  }

  /** What holds after a role-path call returns: both tiers are present, each is
      bound to the identity it was checked against, and the session is built from
      the short token and the handler's region. */
  predicate RolePathResult(h: HandlerState, cfg: Config)
    requires RoleRequired(cfg)
  {
    && h.long.Some? && h.short.Some?
    && h.long.value.sourceProfile == cfg.sourceProfile.value
    && h.short.value.profile == h.profile
    && h.session == Some(RoleSession(h.short.value.creds, h.region))
  }

  /** Lines 145-161: with no long token left, prompt for the MFA code and ask STS
      for a session token of the configured duration. */
  function RefreshLong(h: HandlerState, replies: Replies): (r: Step)
    requires RoleRequired(h.config)
    requires h.long.Some? ==> h.long.value.sourceProfile == h.config.sourceProfile.value
    ensures r.h == h.(long := r.h.long)
    ensures h.long.Some? ==> r == Step(h, [], Done)
    ensures r.status == Done ==> r.h.long.Some? && r.h.long.value.sourceProfile == h.config.sourceProfile.value
    ensures r.status.Failed? ==> r.h == h
    // a new long token is the STS reply stamped with the source profile and region
    ensures h.long.None? && r.status == Done ==>
              && replies.sessionToken.Some?
              && r.h.long == Some(LongToken(replies.sessionToken.value.creds, replies.sessionToken.value.expiration,
                                            h.config.sourceProfile.value, h.region))
  {
    if h.long.Some? then Step(h, [], Done)
    else
      match replies.mfaCode
      case None => Step(h, [MfaPrompt], Failed(MfaInputUnavailable))
      case Some(code) =>
        var request := GetSessionTokenCall(h.config.sourceProfile.value, h.region, h.longDuration,
                                           h.config.mfaSerial.value, code);
        match replies.sessionToken
        case None => Step(h, [MfaPrompt, request], Failed(GetSessionTokenRejected))
        case Some(reply) =>
          var token := LongToken(reply.creds, reply.expiration, h.config.sourceProfile.value, h.region);
          Step(h.(long := Some(token)), [MfaPrompt, request], Done)
  }

  /** Lines 163-183: with no short token left, assume the configured role with the
      long token's credentials for the configured short duration. */
  function RefreshShort(h: HandlerState, replies: Replies): (r: Step)
    requires RoleRequired(h.config) && h.long.Some?
    requires h.short.Some? ==> h.short.value.profile == h.profile
    ensures r.h == h.(short := r.h.short)
    ensures h.short.Some? ==> r == Step(h, [], Done)
    ensures r.status == Done ==> r.h.short.Some? && r.h.short.value.profile == h.profile
    ensures r.status.Failed? ==> r.h == h
    // a new short token is the STS reply stamped with the target profile and region
    ensures h.short.None? && r.status == Done ==>
              && replies.assumeRole.Some?
              && r.h.short == Some(ShortToken(replies.assumeRole.value.creds, replies.assumeRole.value.expiration,
                                              h.profile, h.region))
  {
    if h.short.Some? then Step(h, [], Done)
    else
      var request := AssumeRoleCall(h.long.value.creds, h.config.roleArn.value, RoleSessionName, h.shortDuration);
      match replies.assumeRole
      case None => Step(h, [request], Failed(AssumeRoleRejected))
      case Some(reply) =>
        var token := ShortToken(reply.creds, reply.expiration, h.profile, h.region);
        Step(h.(short := Some(token)), [request], Done)
  }

  /** `_write_cache_file`: one write of both tiers, or nothing when the disk cache is disabled. */
  function WriteCacheFile(h: HandlerState): (es: seq<Effect>)
    ensures h.diskCacheDisabled ==> es == []
    ensures !h.diskCacheDisabled ==> es == [CacheWrite(Save(h.HeldTiers()))]
  {
    if h.diskCacheDisabled then [] else [CacheWrite(Save(h.HeldTiers()))]
  }

  /** `_get_session` (and the public `get_session`, which only forwards to it). */
  function GetSession(h: HandlerState, cfg: Config, now: int, replies: Replies): (r: Step)
    // the selector, durations and cache flag are never changed by a call
    ensures r.h.profile == h.profile && r.h.config == cfg && r.h.region == AdoptRegion(h.region, cfg)
    ensures r.h.diskCacheDisabled == h.diskCacheDisabled
    ensures r.h.longDuration == h.longDuration && r.h.shortDuration == h.shortDuration
    // without a role the tiers are untouched, nothing is prompted, requested or written
    ensures !RoleRequired(cfg) ==>
              && r.status == Done && r.effects == [] && r.h.HeldTiers() == h.HeldTiers()
              && r.h.session == Some(DefaultChainSession(h.profile))
    ensures r.status.Failed? ==> RoleRequired(cfg) && r.h.session == h.session
    // a call that raises does not restore a tier that validation dropped; only a
    // rejected role assumption leaves a newly obtained long token behind
    ensures RoleRequired(cfg) && r.status.Failed? ==> r.h.short == Validated(h, cfg, now).short
    ensures RoleRequired(cfg) && r.status.Failed? && r.status.reason != AssumeRoleRejected ==>
              r.h.long == Validated(h, cfg, now).long
    // a completed role-path call leaves both tiers bound to the current identities
    ensures RoleRequired(cfg) && r.status == Done ==> RolePathResult(r.h, cfg)
    // a tier that survives validation is kept, not reissued
    ensures RoleRequired(cfg) && Validated(h, cfg, now).long.Some? ==> r.h.long == h.long
    ensures RoleRequired(cfg) && Validated(h, cfg, now).short.Some? ==> r.h.short == h.short
    // a reissued tier holds this call's STS reply, the identity it was checked against and the
    // region; a long token obtained before a rejected role assumption is kept as issued
    ensures RoleRequired(cfg) && Validated(h, cfg, now).long.None? && r.h.long.Some? ==>
              && replies.sessionToken.Some?
              && r.h.long == Some(LongToken(replies.sessionToken.value.creds, replies.sessionToken.value.expiration,
                                            cfg.sourceProfile.value, AdoptRegion(h.region, cfg)))
    ensures RoleRequired(cfg) && Validated(h, cfg, now).short.None? && r.h.short.Some? ==>
              && replies.assumeRole.Some?
              && r.h.short == Some(ShortToken(replies.assumeRole.value.creds, replies.assumeRole.value.expiration,
                                              h.profile, AdoptRegion(h.region, cfg)))
    // the order of effects: the prompt first, the session-token request right after it,
    // the role assumption after both, the cache write last
    ensures forall i | 0 <= i < |r.effects| && r.effects[i].MfaPrompt? :: i == 0
    ensures forall i | 0 <= i < |r.effects| && r.effects[i].GetSessionTokenCall? :: i == 1
    ensures forall i, j | 0 <= i < |r.effects| && 0 <= j < |r.effects|
              && r.effects[i].AssumeRoleCall? && !r.effects[j].AssumeRoleCall? && !r.effects[j].CacheWrite? :: j < i
    ensures forall i | 0 <= i < |r.effects| && r.effects[i].CacheWrite? :: i == |r.effects| - 1
    // both tiers valid: the call is silent and keeps both tokens
    ensures RoleRequired(cfg)
            && LongState(h.long, cfg.sourceProfile.value, now) == Valid
            && ShortState(h.short, h.profile, now) == Valid
            ==> r.status == Done && r.effects == [] && r.h.HeldTiers() == h.HeldTiers()
  {
    var h1 := ConfigLookup(h, cfg);
    if !RoleRequired(cfg) then
      Step(h1.(session := Some(DefaultChainSession(h1.profile))), [], Done)
    else
      var v := Validated(h, cfg, now);
      var h2 := h1.(long := v.long, short := v.short);
      var s1 := RefreshLong(h2, replies);
      if s1.status.Failed? then s1
      else
        var s2 := RefreshShort(s1.h, replies);
        if s2.status.Failed? then Step(s2.h, s1.effects + s2.effects, s2.status)
        else
          var h3 := s2.h.(session := Some(RoleSession(s2.h.short.value.creds, s2.h.region)));
          // token_changed is raised only on the short-token branch
          var tokenChanged := h2.short.None?;
          var writes := if tokenChanged then WriteCacheFile(h3) else [];
          Step(h3, s1.effects + s2.effects + writes, Done)
  }

  /** `client`: refuses when neither a profile nor a region is set, hands back an
      existing session without looking at the tokens again, and otherwise runs
      `_get_session` first. */
  function Client(h: HandlerState, cfg: Config, now: int, replies: Replies): (r: Step)
    ensures r.status == Failed(MissingProfileAndRegion) <==> !TruthyStr(h.profile) && !TruthyStr(h.region)
    ensures r.status == Failed(MissingProfileAndRegion) ==> r.h == h && r.effects == []
    ensures (TruthyStr(h.profile) || TruthyStr(h.region)) && h.session.Some? ==> r == Step(h, [], Done)
    ensures r.status == Done ==> r.h.session.Some?
    ensures (TruthyStr(h.profile) || TruthyStr(h.region)) && h.session.None? ==> r == GetSession(h, cfg, now, replies)
  {
    if !TruthyStr(h.profile) && !TruthyStr(h.region) then Step(h, [], Failed(MissingProfileAndRegion))
    else if h.session.Some? then Step(h, [], Done)
    else GetSession(h, cfg, now, replies)
  }

  /** One public call on the handler. */
  datatype Action =
    | SetSelector(profile: Option<string>, region: Option<string>)
    | RequestSession(cfg: Config, now: int, replies: Replies)
    | RequestClient(cfg: Config, now: int, replies: Replies)

  function Apply(h: HandlerState, a: Action): Step {
    match a
    case SetSelector(p, rg) => Step(Set(h, p, rg), [], Done)
    case RequestSession(cfg, now, replies) => GetSession(h, cfg, now, replies)
    case RequestClient(cfg, now, replies) => Client(h, cfg, now, replies)
  }

  /** The final handler and the concatenated trace of a sequence of calls. A call
      that raises does not end the run: the caller may go on using the handler. */
  datatype RunResult = RunResult(h: HandlerState, effects: seq<Effect>)

  function Run(h: HandlerState, actions: seq<Action>): RunResult
    decreases |actions|
  {
    if |actions| == 0 then RunResult(h, [])
    else
      var s := Apply(h, actions[0]);
      var rest := Run(s.h, actions[1..]);
      RunResult(rest.h, s.effects + rest.effects)
  }
}

=== FILE: tokens.dfy ===
/** The two credential tiers the handler caches and the per-call validity check
    applied to each (awssessionhandler.py, `_get_session`, lines 121-143).
    Timestamps are whole seconds; the ISO-8601 text the handler stores and
    re-parses is replaced by the integer it denotes. */
module Tokens {
  import opened Basics

  /** Seconds added to "now" before comparing against an expiry, so that a token
      about to lapse during the following role assumption already counts as gone. */
  const SafetyMargin: int := 10

  /** Access key id, secret access key and session token of one STS credential set. */
  datatype Credentials = Credentials(accessKeyId: string, secretAccessKey: string, sessionToken: string)

  /** What a successful STS `get_session_token` or `assume_role` call hands back. */
  datatype StsReply = StsReply(creds: Credentials, expiration: int)

  /** The MFA-backed session token, remembered with the source profile and region it was issued for. */
  datatype LongToken = LongToken(creds: Credentials, expire: int, sourceProfile: string, region: Option<string>)

  /** The assumed-role token, remembered with the target profile and region it was issued for. */
  datatype ShortToken = ShortToken(creds: Credentials, expire: int, profile: Option<string>, region: Option<string>)

  /** Both cached tiers, either of which may be absent. */
  datatype Tiers = Tiers(long: Option<LongToken>, short: Option<ShortToken>)

  /** The classification of one cached tier at one instant. */
  datatype TierState = Absent | Valid | Expired | IdentityMismatch

  /** An expiry at or before `now + SafetyMargin` has lapsed; equality counts as lapsed. */
  predicate Lapsed(expire: int, now: int) {
    expire <= now + SafetyMargin
  }

  /** State of the long tier against the source profile the configuration names.
      Expiry is looked at first: an expired token is `Expired` whatever its identity. */
  function LongState(t: Option<LongToken>, sourceProfile: string, now: int): TierState {
    match t
    case None => Absent
    case Some(l) =>
      if Lapsed(l.expire, now) then Expired
      else if l.sourceProfile != sourceProfile then IdentityMismatch
      else Valid
  }

  /** State of the short tier against the currently selected profile. */
  function ShortState(t: Option<ShortToken>, profile: Option<string>, now: int): TierState {
    match t
    case None => Absent
    case Some(s) =>
      if Lapsed(s.expire, now) then Expired
      else if s.profile != profile then IdentityMismatch
      else Valid
  }

  /** The long-token check of lines 125-134. A token that is not `Valid` is dropped;
      only a source-profile mismatch also drops the short token, an expired long
      token leaves the short one in place. */
  function CheckLong(t: Tiers, sourceProfile: string, now: int): (r: Tiers)
    ensures r.long.Some? <==> LongState(t.long, sourceProfile, now) == Valid
    ensures r.long.Some? ==> r.long == t.long
    ensures r.short == t.short <==> (LongState(t.long, sourceProfile, now) != IdentityMismatch || t.short.None?)
    ensures r.short.Some? ==> r.short == t.short
  {
    match t.long
    case None => t
    case Some(l) =>
      if Lapsed(l.expire, now) then Tiers(None, t.short)
      else if l.sourceProfile != sourceProfile then Tiers(None, None)
      else t
  }

  /** The short-token check of lines 136-143: the short token survives exactly when
      it is `Valid`; the long tier is never touched here. */
  function CheckShort(t: Tiers, profile: Option<string>, now: int): (r: Tiers)
    ensures r.long == t.long
    ensures r.short.Some? <==> ShortState(t.short, profile, now) == Valid
    ensures r.short.Some? ==> r.short == t.short
  {
    match t.short
    case None => t
    case Some(s) =>
      if Lapsed(s.expire, now) || s.profile != profile then Tiers(t.long, None)
      else t
  }

  /** Both checks in the order the handler runs them. */
  function Validate(t: Tiers, sourceProfile: string, profile: Option<string>, now: int): (r: Tiers)
    ensures r.long.Some? <==> LongState(t.long, sourceProfile, now) == Valid
    ensures r.short.Some? <==>
              LongState(t.long, sourceProfile, now) != IdentityMismatch
              && ShortState(t.short, profile, now) == Valid
    ensures r.long.Some? ==> r.long == t.long
    ensures r.short.Some? ==> r.short == t.short
  {
    CheckShort(CheckLong(t, sourceProfile, now), profile, now)
  }
}
